=== FILE: README.md ===
# moon-shot: a verified model of the platformer's game rules

moon-shot is a small 2D platformer built on the Phaser engine. The player's
hero runs and jumps across platforms, stomps crawling slimes or shoots them
with a crescent projectile, and moves on to the next level once every slime is
dead. Touching a slime any other way restarts the level. This project models
the decision rules in `js/main.js` as pure Dafny functions over immutable
records and proves properties about them. Everything the engine supplies is an
input: the touching and blocked flags, the grounded flag, the hero's position
and velocity after the physics step, the overlap events, the keys held and the
platform image widths.

Modules:

- `Wrappers` (wrappers.dfy): `Option` and `Result`.
- `Facing` (facing.dfy): the facing rule that the hero and the slime share. A
  moving sprite faces the way it moves, and a sprite at rest keeps its facing.
- `HeroSprite` (hero.dfy): `move`, the grounded `jump`, the animation choice,
  and the per-frame animation switch.
- `SlimeSprite` (slime.dfy): spawn velocity, the wall-turn rule, and death.
  Death disables the slime's body, and the slime is then "dying".
- `CrescentSprite` (crescent.dfy): the launch speed and the per-frame drift.
- `LevelLoader` (level.dfy): platforms, the two invisible walls per platform,
  the hero, the slimes and gravity, built from a level description.
- `PlayState` (play.dfy): the level index, the enemy and kill counters, the
  one-action-per-frame input rule, the two overlap callbacks, the deferred
  restart, and a frame step over all of these.
- `StompAsWritten` (stomp.dfy): the hero-versus-slime callback exactly as
  written. See "## Findings".

The session invariant `PlayState.Valid` has five parts:

- The level index lies in [0, 2).
- The enemy count equals the number of slimes.
- The kill count equals the number of dying slimes.
- A pending restart, if any, is for the same level or for the next one.
- A restart into the next level is pending exactly when a level that has slimes
  has all of them dead.

`StepKeepsValid` proves that every frame keeps this invariant, so the kill count
never exceeds the enemy count. The engine reports overlaps only for bodies that
are enabled. So a dying slime cannot be hit twice, and a level is cleared at
most once.

Phaser's `state.restart` does not act at once. It takes effect at the start of
the next frame. The model keeps the requested payload in `Session.pending`.
Callbacks later in the same frame still run, and the last request wins.
`SideHitThenShotClearAdvances` shows one result of this. Suppose the hero
touches a slime and, in the same frame, the projectile kills the last slime.
Then the hero moves on to the next level instead of retrying.

In these places the model follows the code literally:

- The projectile's horizontal drag depends on the direction it was fired in,
  not on how it is moving now. So a projectile fired right stops after 100
  frames and is then pushed left, 4 more each frame (`DragReverses`). The drag
  itself never stops or clamps; only the engine removing the shot once it leaves
  the camera ends it.
- The level index uses JavaScript's truncating `%`. A negative payload would
  give a non-positive index. No caller passes one.
- The projectile's self-kill check reads `body.touching.Hero`, which the engine
  never sets. It therefore never fires, and the model has no such check.

One place departs from the code on purpose. `Hero.bounce` is never defined, so
as written every stomp throws before the slime dies or is counted. That is
modelled only by `StompAsWritten.OnHeroVsEnemyAsWritten` (see "## Findings").
The session model (`PlayState.OnHeroVsEnemy`, and the frame and session
lemmas built on it) uses the evidently intended stomp instead.

## Model

| member | source | states |
|---|---|---|
| HeroSprite.Move | js/main.js:27-36 | vx becomes direction·200, which is non-zero exactly for a non-zero direction; the sprite then faces its motion, and direction 0 keeps the old facing; nothing else changes |
| HeroSprite.Jump | js/main.js:44-53 | the returned flag is exactly the ground-contact flag; a jump that fires sets vy to -600 and changes nothing else; a jump that does not fire changes nothing |
| HeroSprite.JumpIdempotent | js/main.js:44-53 | jumping again before the grounded flag is refreshed gives the same hero: one impulse, not two |
| HeroSprite.AnimationName | js/main.js:55-67 | the four animations, each characterised in both directions: jump iff vy<0; fall iff vy≥0 and airborne; run iff vy≥0, grounded and vx≠0; stop iff vy≥0, grounded and vx=0 |
| HeroSprite.JumpShowsJumpAnimation | js/main.js:44-67 | a jump that fires makes the jump animation the one chosen; one that does not fire leaves the choice unchanged |
| HeroSprite.MoveOnGroundAnimation | js/main.js:27-67 | on the ground with vy=0, moving in any direction chooses run and stopping chooses stop |
| HeroSprite.Update | js/main.js:69-74 | afterwards the current animation is the resolved one; an animation is restarted exactly when the current one differed; nothing else changes |
| HeroSprite.UpdateIdempotent | js/main.js:69-74 | a second update of the same state restarts no animation and changes nothing |
| SlimeSprite.Update | js/main.js:100-113 | contact on the right (touching or blocked) gives vx=-100 whatever vx was before; otherwise contact on the left gives vx=+100; otherwise vx is kept; the sprite faces its motion and keeps its facing at vx=0; nothing else changes |
| SlimeSprite.TurnAtRightWall | js/main.js:102-112 | contact on the right always turns the slime left at full speed and draws it facing left |
| SlimeSprite.UpdateIdempotent | js/main.js:100-113 | repeating the update with the same contact report changes nothing more |
| SlimeSprite.PatrolKeepsSpeed | js/main.js:100-113 | through any sequence of contact reports, a slime moving at ±100 keeps moving at ±100, faces its motion, and stays alive or dying as it was |
| SlimeSprite.SpawnPatrols | js/main.js:93-113 | a spawned slime (vx=+100) patrols at ±100 facing its motion through any sequence of contact reports |
| SlimeSprite.Die | js/main.js:115-121 | death disables the body and starts the death animation, and changes nothing else |
| CrescentSprite.Shoot | js/main.js:142-149 | direction 1 launches at +400, and any other direction at -400; nothing else changes |
| CrescentSprite.Spawn | js/main.js:294-298 | a projectile fired from (x, y) starts there at vy=0, remembers its direction, and moves right at 400 exactly when the direction is 1, otherwise left at 400 |
| CrescentSprite.Update | js/main.js:155-162 | each frame vy drops by 20; vx drops by 4 for a right shot and rises by 4 otherwise; nothing else changes |
| CrescentSprite.FlyDrift | js/main.js:155-162 | after n runs of the script's own update, vy = vy0 - 20n and vx = vx0 ∓ 4n, unclamped, with the direction unchanged (the engine's motion and gravity are outside this update) |
| CrescentSprite.DragReverses | js/main.js:142-162 | a launched projectile has vx=0 after 100 frames and moves against its launch direction from then on |
| LevelLoader.SpawnPlatforms | js/main.js:261-280 | n platform entries give n static, gravity-free platforms and exactly 2n walls; walls 2k and 2k+1 are the left and right walls of platform k, at its x and at x+width |
| LevelLoader.SpawnSlimes | js/main.js:288-291 | one freshly spawned slime per spawn point, in order |
| LevelLoader.Load | js/main.js:237-256 | the world holds the platforms and their wall pairs, the hero at its spawn point, one live slime moving right per spawn point at that point, and gravity 1200 |
| LevelLoader.WallsFlankPlatforms | js/main.js:269-275 | a platform's left wall is anchored by its right edge at the platform's left edge, and its right wall by its left edge at the platform's right edge, one image width apart |
| PlayState.LevelIndex | js/main.js:195 | the index equals the payload level (absent means 0) modulo 2; a non-negative level gives an index in [0, 2), and a negative one truncates into (-2, 0] |
| PlayState.LevelsCycle | js/main.js:332-339 | a first start selects level 0; retrying keeps the level; clearing passes level+1, which wraps, so two clears return to the same level |
| PlayState.LoadLevel | js/main.js:237-259 | a fresh attempt has killCount 0, enemyCount equal to the number of slime entries, no pending restart and no projectile, and satisfies the session invariant |
| PlayState.Start | js/main.js:221-230 | a start succeeds exactly when a description exists for the chosen index, and otherwise reports that index; a successful start is exactly the level loaded from the description at that index: killCount 0, enemyCount its slime count, no tracked projectile, no pending restart, and the session invariant holds |
| PlayState.StartSucceeds | js/main.js:199-201 | with both level descriptions loaded, every non-negative payload starts a level |
| PlayState.KillsBounded | js/main.js:257-258 | in every valid session 0 ≤ killCount ≤ enemyCount |
| PlayState.ClearedIffAllDefeated | js/main.js:330-335 | the next level is requested exactly when the level has slimes and every one of them is dying |
| PlayState.HitBeforeClear | js/main.js:330-331 | a slime that can still be hit means killCount < enemyCount and no clear is pending |
| PlayState.NoHitAfterClear | js/main.js:115-116 | once a clear is pending no slime can be hit, so a level is not cleared twice |
| PlayState.OnHeroVsEnemy | js/main.js:323-342 | with vy>0 the slime dies and killCount rises by exactly 1, and reaching enemyCount requests level+1, otherwise the pending request is kept; with vy≤0 only a retry of the same level is requested; slime i becomes its own death (`SlimeSprite.Die`); the other slimes, the hero, the projectile, platforms, walls, gravity, enemyCount and the level are untouched |
| PlayState.OnProjectileVsEnemy | js/main.js:344-356 | the slime dies and killCount rises by exactly 1; reaching enemyCount requests level+1, otherwise the pending request is kept; slime i becomes its own death (`SlimeSprite.Die`); the hero, the projectile, the other slimes, platforms, walls, gravity, enemyCount and the level are untouched |
| PlayState.DefeatedAfterDie | js/main.js:326-330 | killing a live slime adds exactly one to the number of dying slimes, just as the callback adds one to killCount |
| PlayState.KillClearsIff | js/main.js:330-335 | in a valid session, a stomp or a shot requests level+1 if and only if the new killCount equals enemyCount |
| PlayState.HitsKeepValid | js/main.js:323-356 | both overlap callbacks keep the session invariant, including killCount ≤ enemyCount |
| PlayState.LastStompAdvances | js/main.js:330-335 | stomping the last live slime requests level+1, and the restart loads the next level (mod 2) from scratch |
| PlayState.EarlierStompContinues | js/main.js:330-331 | a stomp that leaves a slime alive requests no clear |
| PlayState.SideHitRetries | js/main.js:336-341 | touching a slime without falling onto it restarts the same level with killCount 0, whatever the kill count was |
| PlayState.SideHitThenShotClearAdvances | js/main.js:305-306 | a retry requested by a side hit is overridden if the projectile kills the last slime in the same frame |
| PlayState.ChooseAction | js/main.js:309-321 | exactly one action per frame, each in both directions: left → move(-1); right (without left) → move(1); then fireLeft → fire(-1); then fireRight → fire(1); with none of them held → move(0) |
| PlayState.SpawnProjectile | js/main.js:294-299 | the new projectile starts at the hero's position with vy 0, records its direction (which decides its drift) and moves at ±400 by direction; it replaces the tracked one; nothing else changes |
| PlayState.HandleInput | js/main.js:309-321 | a move action applies the hero's move and nothing else; a fire action spawns a projectile and leaves the whole world, including the hero's velocity, unchanged |
| PlayState.InputPriority | js/main.js:309-321 | holding left always moves left and faces left; no keys stop the hero but keep its facing; firing leaves the hero as it was; input never touches the counters or a pending restart |
| PlayState.OnJumpKey | js/main.js:186-191 | the jump key jumps exactly when the hero is grounded and reports it; a jump sets the hero's vy to -600 and changes nothing else in the session; otherwise nothing changes |
| PlayState.UpdateSprites | js/main.js:69-166 | the per-frame sprite pass: every slime runs the wall-turn rule on its own contact report; the hero changes only in that its animation becomes the resolved one; the tracked projectile, if any, takes one frame of drift; platforms, walls, gravity, level, counters and pending restart are untouched |
| HeroSprite.Spawn | js/main.js:8-21 | a new hero stands at its spawn point at rest, facing right and not grounded, with 'fall' as the current animation, the last of the four registered |
| SlimeSprite.Spawn | js/main.js:79-94 | a new slime stands at its spawn point moving right at 100, facing right, with its body enabled and crawling |
| PlayState.HitsKeepHero | js/main.js:323-356 | no sequence of overlap callbacks moves the hero or changes its velocity |
| PlayState.FireFrame | js/main.js:294-320 | in a frame whose keys fire, the projectile starts at the hero's position as the engine reports it, and the hero keeps the engine-reported vx, so a hero stopped against a wall shows the animation for that vx |
| PlayState.FrameKeepsValid | js/main.js:232-235 | a running frame (collisions and overlaps, then input, then sprite updates) keeps the session invariant |
| PlayState.StepKeepsValid | js/main.js:195-235 | every step, whether the deferred restart taking effect through `init` and `create` (lines 195 and 229) or a run of `update` (lines 232-235), keeps the session invariant and never fails to load a level |
| StompAsWritten.OnHeroVsEnemyAsWritten | js/main.js:323-342 | as written, every stomp (vy>0) throws; a non-stomp contact behaves as in the intended callback |
| StompAsWritten.StompNeverCounts | js/main.js:324-330 | every stomp on a live slime throws as written, while the intended callback counts the kill and keeps the invariant |
| StompAsWritten.OneSlimeLandingDiffers | js/main.js:324-335 | on a one-slime level with the hero landing at vy=1, the code as written throws, while the intended callback clears the level and requests level 1 |

## Left out

- Rendering, sprite and animation registration, asset preloading, audio playback, the `window.onload` boot and keyboard binding. These are engine input/output. Which jump sound or stomp sound would play is not modelled.
- Arcade physics is left out: gravity integration, resolving `collide` and `overlap`, `collideWorldBounds` and `inCamera`. Their results are inputs in `PlayState.FrameInput` and `SlimeSprite.Contact`. The velocity change a wall collision causes before `Slime.update` runs is not modelled.
- The projectile leaving the camera and being killed is left out. The engine decides when that happens.
- The projectile's self-kill check in `shoot` is left out. It reads `body.touching.Hero`, a field the engine never sets, so it never fires.
- `Slime.die`'s animation-completion callback that finally removes the slime is left out, because its timing belongs to the engine. A dying slime stays in the list with its body disabled.
- PlayState.OnHeroVsEnemy: the velocity effect of the hero's bounce after a stomp is not modelled. `Hero.bounce` is not defined anywhere, so it has no specified effect. This callback, and `HeroHits`, `Frame`, `Step` and every stomp lemma built on it (`KillClearsIff`, `LastStompAdvances`, `EarlierStompContinues`, `HitsKeepValid`, `FrameKeepsValid`, `StepKeepsValid`), use the corrected stomp. As written, the first stomp in a frame throws out of the collision pass, so that slime is not killed, nothing is counted, and the frame's input handling and sprite updates do not run.
- The global `Crescent.SPEED` and `Crescent.shootDir` fields are left out. Each projectile's launch speed is set by its own shot, and its drift reads its own `shootDir`.
- Older projectiles keep flying but are not modelled. Only the projectile fired most recently is tracked, because it is the only one the source checks against slimes.
- The `console.log('dead')` in the projectile callback is console output and is not modelled.
- `clearedLevel` is set in `init` and never read, so it is not modelled.
- Levels whose `level` payload is not an integer are left out. That would need JavaScript floating point.
- Frame ordering is left out: the order in which the engine updates sprites relative to its physics step. Frames follow the order collisions, input, sprite updates.

## Findings

| source | as written | input that shows it | evidently intended | confidence | as-written member | corrected member |
|---|---|---|---|---|---|---|
| js/main.js:325 | `hero.bounce()` calls a method that neither `Hero` nor the engine's sprite defines, so the stomp branch throws a TypeError before `enemy.die()` and `killCount++` | a level with one slime, where the hero overlaps it while falling with vy = 1 | the stomp kills the slime, counts it, and clears the level when it was the last one | high; not executed | StompAsWritten.OnHeroVsEnemyAsWritten | PlayState.OnHeroVsEnemy |

=== FILE: crescent.dfy ===
/** The hero's projectile: launched sideways at a fixed speed; every frame
    its vertical velocity drops by a fixed amount and its horizontal velocity
    changes by a fixed amount against the launch direction. */
module CrescentSprite {

  /** Launch speed. */
  const SPEED: int := 400
  /** Amount subtracted from the vertical velocity every frame; the engine's
      gravity acts on the body separately. */
  const DRIFT: int := 20
  /** Horizontal slow-down applied every frame against the launch direction. */
  const DRAG: int := 4

  /** `shootDir` is the direction it was fired in: 1 for right, anything
      else (in practice -1) for left. */
  datatype Crescent = Crescent(x: int, y: int, vx: int, vy: int, shootDir: int)

  /** Launch speed for a direction: only exactly 1 fires to the right. */
  function LaunchSpeed(direction: int): int {
    if direction == 1 then SPEED else -SPEED
  }

  /** Per-frame change of the horizontal velocity for a direction. */
  function Pull(direction: int): int {
    if direction == 1 then -DRAG else DRAG
  }

  /** Sets the launch velocity; the rest of the projectile is untouched. */
  function Shoot(c: Crescent, direction: int): (r: Crescent)
    ensures direction == 1 ==> r.vx == SPEED
    ensures direction != 1 ==> r.vx == -SPEED
    ensures r == c.(vx := r.vx)
  {
    c.(vx := LaunchSpeed(direction))
  }

  /** A projectile fired from (x, y) in `direction`: created at rest there,
      tagged with its direction, then shot. */
  function Spawn(x: int, y: int, direction: int): (r: Crescent)
    ensures r.x == x && r.y == y && r.vy == 0 && r.shootDir == direction
    ensures r.vx == SPEED || r.vx == -SPEED
    ensures direction == 1 <==> r.vx > 0
  {
    Shoot(Crescent(x, y, 0, 0, direction), direction)
  }

  /** Per-frame change: vertical velocity down by DRIFT, horizontal velocity
      by DRAG against the launch direction. */
  function Update(c: Crescent): (r: Crescent)
    ensures r.vy == c.vy - DRIFT
    ensures c.shootDir == 1 ==> r.vx == c.vx - DRAG
    ensures c.shootDir != 1 ==> r.vx == c.vx + DRAG
    ensures r == c.(vx := r.vx, vy := r.vy)
  {
    c.(vx := c.vx + Pull(c.shootDir), vy := c.vy - DRIFT)
  }

  /** The projectile after `n` runs of its own per-frame update. The
      engine's motion and gravity are not part of it. */
  function Fly(c: Crescent, n: nat): Crescent
    decreases n
  {
    if n == 0 then c else Update(Fly(c, n - 1))
  }

  /** Closed form of `n` runs of the update: the velocities change linearly and
      are never clamped. */
  lemma {:induction false} FlyDrift(c: Crescent, n: nat)
    ensures Fly(c, n).vy == c.vy - n * DRIFT
    ensures Fly(c, n).vx == c.vx + n * Pull(c.shootDir)
    ensures Fly(c, n).shootDir == c.shootDir
    ensures Fly(c, n).x == c.x && Fly(c, n).y == c.y
    decreases n
  {
    if n > 0 {
      FlyDrift(c, n - 1);
    }
  }

  /** The drag does not stop at zero: a projectile fired right stands still
      horizontally after 100 frames and moves left from then on; fired left
      it mirrors that. */
  lemma DragReverses(x: int, y: int, direction: int, n: nat)
    requires n > SPEED / DRAG
    ensures Fly(Spawn(x, y, direction), SPEED / DRAG).vx == 0
    ensures direction == 1 ==> Fly(Spawn(x, y, direction), n).vx < 0
    ensures direction != 1 ==> Fly(Spawn(x, y, direction), n).vx > 0
  {
    FlyDrift(Spawn(x, y, direction), SPEED / DRAG);
    FlyDrift(Spawn(x, y, direction), n);
  }
}

=== FILE: facing.dfy ===
/** The facing rule that the hero and the slime share: a sprite's horizontal
    scale is mirrored to match the sign of its horizontal velocity. */
module Facing {

  /** Horizontal sprite scale: -1 draws the sprite facing left, 1 facing right. */
  type Scale = s: int | s == -1 || s == 1 witness 1

  /** A sprite with scale `scale` moving at `vx` is drawn facing the way it moves. */
  predicate FacesMotion(scale: Scale, vx: int) {
    (vx < 0 ==> scale == -1) && (vx > 0 ==> scale == 1)
  }

  /** The scale after the rule runs: the sign of `vx`, or the old scale at rest. */
  function Mirror(scale: Scale, vx: int): Scale {
    if vx < 0 then -1 else if vx > 0 then 1 else scale
  }
}

=== FILE: hero.dfy ===
/** The player's sprite: horizontal movement, the grounded jump, and the
    choice among its four animations. The engine's body is reduced to the
    facts these rules read: velocity and whether the body touches ground. */
module HeroSprite {
  import opened Facing

  /** Horizontal run speed. */
  const SPEED: int := 200
  /** Upward impulse of a jump (applied as a negative vertical velocity). */
  const JUMP_SPEED: int := 600

  datatype Anim = StopAnim | RunAnim | JumpAnim | FallAnim

  /** `touchingDown` is the engine's report that the body rested on something
      below after the last collision pass; `anim` is the current animation. */
  datatype Hero = Hero(x: int, y: int, vx: int, vy: int, facing: Scale,
                       touchingDown: bool, anim: Anim)

  /** The hero as its constructor leaves it: at rest and facing right. The
      engine makes the most recently registered animation, 'fall', current. */
  function Spawn(x: int, y: int): (r: Hero)
    ensures r.x == x && r.y == y && r.vx == 0 && r.vy == 0
    ensures r.facing == 1 && !r.touchingDown && r.anim == FallAnim
  {
    Hero(x, y, 0, 0, 1, false, FallAnim)
  }

  /** Sets the run velocity for `direction` (-1 left, 0 stop, 1 right) and
      turns the sprite toward it; at rest the sprite keeps its facing. */
  function Move(h: Hero, direction: int): (r: Hero)
    ensures r.vx == direction * SPEED
    ensures r.vx != 0 <==> direction != 0
    ensures FacesMotion(r.facing, r.vx)
    ensures direction == 0 ==> r.facing == h.facing
    ensures r == h.(vx := r.vx, facing := r.facing)
  {
    var vx := direction * SPEED;
    h.(vx := vx, facing := Mirror(h.facing, vx))
  }

  /** A jump fires only while the body touches ground; the boolean reports it. */
  function Jump(h: Hero): (r: (Hero, bool))
    ensures r.1 == h.touchingDown
    ensures r.1 ==> r.0 == h.(vy := -JUMP_SPEED)
    ensures !r.1 ==> r.0 == h
  {
    if h.touchingDown then (h.(vy := -JUMP_SPEED), true) else (h, false)
  }

  /** The animation the hero's motion calls for. Rising wins over everything,
      then being airborne, then running on the ground; otherwise it stands. */
  function AnimationName(h: Hero): (a: Anim)
    ensures a == JumpAnim <==> h.vy < 0
    ensures a == FallAnim <==> h.vy >= 0 && !h.touchingDown
    ensures a == RunAnim <==> h.vy >= 0 && h.touchingDown && h.vx != 0
    ensures a == StopAnim <==> h.vy >= 0 && h.touchingDown && h.vx == 0
  {
    if h.vy < 0 then JumpAnim
    else if h.vy >= 0 && !h.touchingDown then FallAnim
    else if h.vx != 0 && h.touchingDown then RunAnim
    else StopAnim
  }

  /** Per-frame update: the current animation becomes the one the motion
      calls for; the boolean reports whether it had to be (re)started. */
  function Update(h: Hero): (r: (Hero, bool))
    ensures r.0.anim == AnimationName(h)
    ensures r.1 <==> h.anim != AnimationName(h)
    ensures r.0 == h.(anim := r.0.anim)
  {
    var name := AnimationName(h);
    if h.anim != name then (h.(anim := name), true) else (h, false)
  }

  /** A second update with nothing changed restarts nothing. */
  lemma UpdateIdempotent(h: Hero)
    ensures Update(Update(h).0) == (Update(h).0, false)
  {
    var h1 := Update(h).0;
    assert AnimationName(h1) == AnimationName(h);
  }

  /** Pressing jump twice before the engine refreshes the grounded flag gives
      one impulse, not two: a second jump leaves the hero as the first did. */
  lemma JumpIdempotent(h: Hero)
    ensures Jump(Jump(h).0) == (Jump(h).0, h.touchingDown)
  {
  }

  /** A jump that fires makes the next update show the jump animation; one
      that does not fire leaves the animation choice as it was. */
  lemma JumpShowsJumpAnimation(h: Hero)
    ensures Jump(h).1 ==> AnimationName(Jump(h).0) == JumpAnim
    ensures !Jump(h).1 ==> AnimationName(Jump(h).0) == AnimationName(h)
  {
  }

  /** On the ground at rest vertically, moving picks 'run' and stopping 'stop'. */
  lemma MoveOnGroundAnimation(h: Hero, direction: int)
    requires h.touchingDown && h.vy == 0
    ensures AnimationName(Move(h, direction)) == (if direction != 0 then RunAnim else StopAnim)
  {
  }
}

=== FILE: level.dfy ===
/** Turning a level description into the sprites of one attempt at a level:
    platforms, the invisible walls that bound the slimes' patrols, the hero
    and the slimes. */
module LevelLoader {
  import HeroSprite
  import SlimeSprite

  /** Downward gravity the loader switches on once everything is placed. */
  const GRAVITY: int := 1200

  datatype Point = Point(x: int, y: int)

  /** One platform entry of a level description: its position and image. */
  datatype PlatformSpec = PlatformSpec(x: int, y: int, image: string)

  /** A level description: platforms, the hero's spawn point and one spawn
      point per slime. */
  datatype LevelData = LevelData(platforms: seq<PlatformSpec>, hero: Point,
                                 slimes: seq<Point>)

  /** A platform body: static, immune to gravity. */
  datatype Platform = Platform(x: int, y: int, image: string,
                               allowGravity: bool, immovable: bool)

  datatype Side = LeftSide | RightSide

  /** An invisible wall standing on a platform's edge. `x` is its anchor: the
      left wall is anchored at its right edge and the right wall at its left
      edge, so both stand just outside the platform. */
  datatype Wall = Wall(x: int, y: int, side: Side, allowGravity: bool, immovable: bool)
  {
    /** Horizontal anchor of the wall's sprite, as a fraction of its width. */
    function AnchorX(): int {
      if side == LeftSide then 1 else 0
    }
  }

  /** Everything a level attempt places in the world. */
  datatype World = World(platforms: seq<Platform>, walls: seq<Wall>,
                         hero: HeroSprite.Hero, slimes: seq<SlimeSprite.Slime>,
                         gravity: int)

  /** The wall on `side` of a platform spec whose image is `width` wide. */
  function WallFor(p: PlatformSpec, width: int, side: Side): Wall {
    Wall(if side == LeftSide then p.x else p.x + width, p.y, side, false, true)
  }

  /** The platform body and the wall pair spawned for one platform spec. */
  predicate Spawned(p: PlatformSpec, width: int, body: Platform, left: Wall, right: Wall) {
    && body == Platform(p.x, p.y, p.image, false, true)
    && left == Wall(p.x, p.y, LeftSide, false, true)
    && right == Wall(p.x + width, p.y, RightSide, false, true)
  }

  /** Spawns every platform in order; each one contributes its body and
      exactly two walls, its left wall at index 2k and its right at 2k+1.
      `widthOf` gives the width of a platform image. */
  function SpawnPlatforms(ps: seq<PlatformSpec>, widthOf: string -> int)
    : (r: (seq<Platform>, seq<Wall>))
    ensures |r.0| == |ps| && |r.1| == 2 * |ps|
    ensures forall k :: 0 <= k < |ps| ==>
              Spawned(ps[k], widthOf(ps[k].image), r.0[k], r.1[2 * k], r.1[2 * k + 1])
    decreases |ps|
  {
    if |ps| == 0 then ([], [])
    else
      var n := |ps| - 1;
      var done := SpawnPlatforms(ps[..n], widthOf);
      var p := ps[n];
      var width := widthOf(p.image);
      var platforms := done.0 + [Platform(p.x, p.y, p.image, false, true)];
      var walls := done.1 + [WallFor(p, width, LeftSide), WallFor(p, width, RightSide)];
      assert walls[2 * n] == WallFor(p, width, LeftSide) && walls[2 * n + 1] == WallFor(p, width, RightSide);
      assert forall k :: 0 <= k < n ==> ps[k] == ps[..n][k];
      (platforms, walls)
  }

  /** One slime per spawn point, in order. */
  function SpawnSlimes(points: seq<Point>): (r: seq<SlimeSprite.Slime>)
    ensures |r| == |points|
    ensures forall k :: 0 <= k < |points| ==> r[k] == SlimeSprite.Spawn(points[k].x, points[k].y)
  {
    seq(|points|, k requires 0 <= k < |points| => SlimeSprite.Spawn(points[k].x, points[k].y))
  }

  /** Builds the world of one level attempt from its description. */
  function Load(data: LevelData, widthOf: string -> int): (w: World)
    ensures |w.platforms| == |data.platforms| && |w.walls| == 2 * |data.platforms|
    ensures forall k :: 0 <= k < |data.platforms| ==>
              Spawned(data.platforms[k], widthOf(data.platforms[k].image),
                      w.platforms[k], w.walls[2 * k], w.walls[2 * k + 1])
    ensures w.hero == HeroSprite.Spawn(data.hero.x, data.hero.y)
    ensures |w.slimes| == |data.slimes|
    ensures forall k :: 0 <= k < |data.slimes| ==>
              w.slimes[k].bodyEnabled && w.slimes[k].vx == SlimeSprite.SPEED
              && w.slimes[k].x == data.slimes[k].x && w.slimes[k].y == data.slimes[k].y
    ensures w.gravity == GRAVITY
  {
    var (platforms, walls) := SpawnPlatforms(data.platforms, widthOf);
    World(platforms, walls, HeroSprite.Spawn(data.hero.x, data.hero.y),
          SpawnSlimes(data.slimes), GRAVITY)
  }

  /** Every wall stands outside the platform it belongs to: the left wall's
      anchor is the platform's left edge and the right wall's anchor its right
      edge, so a platform of positive width has its walls strictly apart. */
  lemma WallsFlankPlatforms(data: LevelData, widthOf: string -> int, k: nat)
    requires k < |data.platforms|
    requires widthOf(data.platforms[k].image) > 0
    ensures var w := Load(data, widthOf);
            && w.walls[2 * k].side == LeftSide && w.walls[2 * k].AnchorX() == 1
            && w.walls[2 * k + 1].side == RightSide && w.walls[2 * k + 1].AnchorX() == 0
            && w.walls[2 * k].x == w.platforms[k].x
            && w.walls[2 * k].x < w.walls[2 * k + 1].x
            && w.walls[2 * k + 1].x - w.walls[2 * k].x == widthOf(w.platforms[k].image)
  {
  }
}

=== FILE: play.dfy ===
/** The play state: one attempt at a level, driven frame by frame by the
    engine's collision and overlap reports and by the keyboard, and ended by a
    restart that either retries the level or moves on to the next one. */
module PlayState {
  import opened Wrappers
  import HeroSprite
  import SlimeSprite
  import CrescentSprite
  import LevelLoader

  /** Number of level descriptions the game ships. */
  const LEVEL_COUNT: int := 2

  datatype LoadError = LevelMissing(index: int)

  /** One level attempt. `crescent` is the most recently fired projectile, the
      only one whose overlaps with slimes are checked. `pending` is the level
      payload of a requested restart: the engine performs a restart at the
      start of the next frame, so callbacks later in the same frame still run
      and the last request wins. */
  datatype Session = Session(level: int, world: LevelLoader.World,
                             crescent: Option<CrescentSprite.Crescent>,
                             enemyCount: int, killCount: int,
                             pending: Option<int>)

  /** JavaScript's `%`: the remainder takes the sign of the dividend. */
  function JsRem(a: int, n: int): int
    requires n > 0
  {
    if a >= 0 then a % n else -((-a) % n)
  }

  /** The level index the state starts with for a restart payload's `level`
      field (absent on the first start): an absent or zero level selects level
      0, and the index wraps around the number of levels. */
  function LevelIndex(payload: Option<int>): (r: int)
    ensures (payload.GetOr(0) - r) % LEVEL_COUNT == 0
    ensures payload.GetOr(0) >= 0 ==> 0 <= r < LEVEL_COUNT
    ensures payload.GetOr(0) < 0 ==> -LEVEL_COUNT < r <= 0
  {
    JsRem(payload.GetOr(0), LEVEL_COUNT)
  }

  /** Clearing passes `level + 1`, which wraps to the next level: from the
      last level play returns to the first, and retrying keeps the level. */
  lemma LevelsCycle(level: int)
    requires 0 <= level < LEVEL_COUNT
    ensures LevelIndex(None) == 0
    ensures LevelIndex(Some(level)) == level
    ensures LevelIndex(Some(level + 1)) == (level + 1) % LEVEL_COUNT
    ensures LevelIndex(Some(LevelIndex(Some(level + 1)) + 1)) == level
  {
  }

  /** Number of slimes that have been killed (their body is disabled). */
  function Defeated(slimes: seq<SlimeSprite.Slime>): (n: nat)
    ensures n <= |slimes|
    decreases |slimes|
  {
    if |slimes| == 0 then 0
    else Defeated(slimes[..|slimes| - 1]) + (if slimes[|slimes| - 1].bodyEnabled then 0 else 1)
  }

  /** The count reaches its bounds exactly in the extreme cases: all slimes
      are dead, or none is. */
  lemma {:induction false} DefeatedBounds(slimes: seq<SlimeSprite.Slime>)
    ensures Defeated(slimes) == |slimes| <==> forall k :: 0 <= k < |slimes| ==> !slimes[k].bodyEnabled
    ensures Defeated(slimes) == 0 <==> forall k :: 0 <= k < |slimes| ==> slimes[k].bodyEnabled
    decreases |slimes|
  {
    if |slimes| > 0 {
      var n := |slimes| - 1;
      var init := slimes[..n];
      assert forall k :: 0 <= k < n ==> init[k] == slimes[k];
      DefeatedBounds(init);
    }
  }

  /** Killing one live slime adds exactly one to the number defeated. */
  lemma {:induction false} DefeatedAfterDie(slimes: seq<SlimeSprite.Slime>, i: nat)
    requires i < |slimes| && slimes[i].bodyEnabled
    ensures Defeated(slimes[i := SlimeSprite.Die(slimes[i])]) == Defeated(slimes) + 1
    decreases |slimes|
  {
    var after := slimes[i := SlimeSprite.Die(slimes[i])];
    var n := |slimes| - 1;
    assert Defeated(after) == Defeated(after[..n]) + (if after[n].bodyEnabled then 0 else 1);
    assert Defeated(slimes) == Defeated(slimes[..n]) + (if slimes[n].bodyEnabled then 0 else 1);
    if i < n {
      assert after[..n] == slimes[..n][i := SlimeSprite.Die(slimes[i])];
      DefeatedAfterDie(slimes[..n], i);
    } else {
      assert after[..n] == slimes[..n];
    }
  }

  /** Slimes that are alive or dying pairwise alike count the same. */
  lemma {:induction false} DefeatedByLiveness(a: seq<SlimeSprite.Slime>, b: seq<SlimeSprite.Slime>)
    requires |a| == |b|
    requires forall k :: 0 <= k < |a| ==> a[k].bodyEnabled == b[k].bodyEnabled
    ensures Defeated(a) == Defeated(b)
    decreases |a|
  {
    if |a| > 0 {
      var n := |a| - 1;
      DefeatedByLiveness(a[..n], b[..n]);
    }
  }

  /** The session invariant: the enemy count is the number of slimes, the
      kill count the number of them that have died, and a restart into the
      next level is pending exactly when a level with slimes has all of them
      dead. Any other pending restart retries the same level. */
  ghost predicate Valid(s: Session) {
    && 0 <= s.level < LEVEL_COUNT
    && s.enemyCount == |s.world.slimes|
    && s.killCount == Defeated(s.world.slimes)
    && (s.pending.None? || s.pending == Some(s.level) || s.pending == Some(s.level + 1))
    && (s.pending == Some(s.level + 1) <==> 0 < s.enemyCount == s.killCount)
  }

  /** The kill count never exceeds the enemy count. */
  lemma KillsBounded(s: Session)
    requires Valid(s)
    ensures 0 <= s.killCount <= s.enemyCount
  {
  }

  /** A level attempt moves on exactly when every one of its slimes has died. */
  lemma ClearedIffAllDefeated(s: Session)
    requires Valid(s)
    ensures s.pending == Some(s.level + 1) <==>
              |s.world.slimes| > 0 && forall k :: 0 <= k < |s.world.slimes| ==> !s.world.slimes[k].bodyEnabled
  {
    DefeatedBounds(s.world.slimes);
  }

  /** The engine reports an overlap with slime `i` only while its body is
      enabled; a dying slime can be neither stomped nor shot. */
  predicate CanHit(s: Session, i: nat) {
    i < |s.world.slimes| && s.world.slimes[i].bodyEnabled
  }

  /** Once the level is cleared no slime is left to hit, so the clear cannot
      be counted twice. */
  lemma NoHitAfterClear(s: Session, i: nat)
    requires Valid(s) && s.pending == Some(s.level + 1)
    ensures !CanHit(s, i)
  {
    ClearedIffAllDefeated(s);
  }

  /** A slime that can be hit means the level is not yet cleared. */
  lemma HitBeforeClear(s: Session, i: nat)
    requires Valid(s) && CanHit(s, i)
    ensures s.killCount < s.enemyCount
    ensures s.pending != Some(s.level + 1)
  {
    DefeatedBounds(s.world.slimes);
  }

  /** The session a fresh start of `level` with description `data` yields. */
  function LoadLevel(level: int, data: LevelLoader.LevelData, widthOf: string -> int): (s: Session)
    ensures s.level == level && s.world == LevelLoader.Load(data, widthOf)
    ensures s.killCount == 0 && s.enemyCount == |data.slimes|
    ensures s.pending == None && s.crescent == None
    ensures 0 <= level < LEVEL_COUNT ==> Valid(s)
  {
    var world := LevelLoader.Load(data, widthOf);
    DefeatedBounds(world.slimes);
    Session(level, world, None, |data.slimes|, 0, None)
  }

  /** Starting (or restarting) the state with a payload: pick the level index
      and load its description; an index with no description fails. */
  function Start(payload: Option<int>, levels: seq<LevelLoader.LevelData>, widthOf: string -> int)
    : (r: Result<Session, LoadError>)
    ensures r.Success? <==> 0 <= LevelIndex(payload) < |levels|
    ensures r.Failure? ==> r.error == LevelMissing(LevelIndex(payload))
    ensures r.Success? ==> r.value.level == LevelIndex(payload) && r.value.killCount == 0
                           && r.value.enemyCount == |levels[r.value.level].slimes|
                           && r.value.pending == None && Valid(r.value)
    ensures r.Success? ==> r.value == LoadLevel(LevelIndex(payload), levels[LevelIndex(payload)], widthOf)
                           && r.value.crescent == None
  {
    var index := LevelIndex(payload);
    if 0 <= index < |levels| then Success(LoadLevel(index, levels[index], widthOf))
    else Failure(LevelMissing(index))
  }

  /** With both level descriptions present, a non-negative payload always
      starts a level. */
  lemma StartSucceeds(payload: Option<int>, levels: seq<LevelLoader.LevelData>, widthOf: string -> int)
    requires |levels| == LEVEL_COUNT && payload.GetOr(0) >= 0
    ensures Start(payload, levels, widthOf).Success?
  {
  }

  function WithHero(s: Session, h: HeroSprite.Hero): Session {
    s.(world := s.world.(hero := h))
  }

  /** Slime `i` dies and is counted; the last kill requests the next level. */
  function Kill(s: Session, i: nat): Session
    requires i < |s.world.slimes|
  {
    var slimes := s.world.slimes[i := SlimeSprite.Die(s.world.slimes[i])];
    var kills := s.killCount + 1;
    s.(world := s.world.(slimes := slimes), killCount := kills,
       pending := if kills == s.enemyCount then Some(s.level + 1) else s.pending)
  }

  /** The hero overlaps slime `i`. Falling onto it kills it; any other contact
      requests a retry of the level, whatever the kill count. The hero's
      bounce after a stomp is not part of this model. */
  function OnHeroVsEnemy(s: Session, i: nat): (r: Session)
    requires CanHit(s, i)
    ensures |r.world.slimes| == |s.world.slimes|
    ensures s.world.hero.vy > 0 ==> r.killCount == s.killCount + 1 && !r.world.slimes[i].bodyEnabled
    ensures s.world.hero.vy > 0 ==>
              (r.killCount == s.enemyCount ==> r.pending == Some(s.level + 1))
              && (r.killCount != s.enemyCount ==> r.pending == s.pending)
    ensures s.world.hero.vy <= 0 ==> r == s.(pending := Some(s.level))
    ensures r.level == s.level && r.enemyCount == s.enemyCount && r.world.hero == s.world.hero
    ensures forall k :: 0 <= k < |s.world.slimes| && k != i ==> r.world.slimes[k] == s.world.slimes[k]
    ensures s.world.hero.vy > 0 ==> r.world.slimes[i] == SlimeSprite.Die(s.world.slimes[i])
    ensures r.world.platforms == s.world.platforms && r.world.walls == s.world.walls
            && r.world.gravity == s.world.gravity && r.crescent == s.crescent
  {
    if s.world.hero.vy > 0 then Kill(s, i)
    else s.(pending := Some(s.level))
  }

  /** The tracked projectile overlaps slime `i`: the slime dies and is
      counted, and the last kill requests the next level. The projectile
      flies on. */
  function OnProjectileVsEnemy(s: Session, i: nat): (r: Session)
    requires CanHit(s, i)
    ensures |r.world.slimes| == |s.world.slimes|
    ensures r.killCount == s.killCount + 1 && !r.world.slimes[i].bodyEnabled
    ensures r.killCount == s.enemyCount ==> r.pending == Some(s.level + 1)
    ensures r.killCount != s.enemyCount ==> r.pending == s.pending
    ensures r.level == s.level && r.enemyCount == s.enemyCount
    ensures r.world.hero == s.world.hero && r.crescent == s.crescent
    ensures forall k :: 0 <= k < |s.world.slimes| && k != i ==> r.world.slimes[k] == s.world.slimes[k]
    ensures r.world.slimes[i] == SlimeSprite.Die(s.world.slimes[i])
    ensures r.world.platforms == s.world.platforms && r.world.walls == s.world.walls
            && r.world.gravity == s.world.gravity
  {
    Kill(s, i)
  }

  /** Both overlap callbacks keep the session invariant. */
  lemma HitsKeepValid(s: Session, i: nat)
    requires Valid(s) && CanHit(s, i)
    ensures Valid(OnHeroVsEnemy(s, i))
    ensures Valid(OnProjectileVsEnemy(s, i))
  {
    HitBeforeClear(s, i);
    DefeatedAfterDie(s.world.slimes, i);
    assert Valid(Kill(s, i));
  }

  /** A kill requests the next level if and only if it brings the kill count
      up to the enemy count. */
  lemma KillClearsIff(s: Session, i: nat)
    requires Valid(s) && CanHit(s, i)
    ensures s.world.hero.vy > 0 ==>
              (OnHeroVsEnemy(s, i).pending == Some(s.level + 1)
               <==> OnHeroVsEnemy(s, i).killCount == s.enemyCount)
    ensures (OnProjectileVsEnemy(s, i).pending == Some(s.level + 1)
             <==> OnProjectileVsEnemy(s, i).killCount == s.enemyCount)
  {
    HitBeforeClear(s, i);
  }

  /** Stomping the last live slime clears the level: the attempt restarts on
      the next level (wrapping around), with no kills counted. */
  lemma LastStompAdvances(s: Session, i: nat, levels: seq<LevelLoader.LevelData>, widthOf: string -> int)
    requires Valid(s) && CanHit(s, i) && s.world.hero.vy > 0
    requires s.killCount + 1 == s.enemyCount
    requires |levels| == LEVEL_COUNT
    ensures OnHeroVsEnemy(s, i).pending == Some(s.level + 1)
    ensures var next := (s.level + 1) % LEVEL_COUNT;
            Start(OnHeroVsEnemy(s, i).pending, levels, widthOf)
              == Success(LoadLevel(next, levels[next], widthOf))
  {
  }

  /** A stomp that leaves a slime alive keeps the attempt running. */
  lemma EarlierStompContinues(s: Session, i: nat)
    requires Valid(s) && CanHit(s, i) && s.world.hero.vy > 0
    requires s.killCount + 1 < s.enemyCount
    ensures OnHeroVsEnemy(s, i).pending == s.pending
    ensures OnHeroVsEnemy(s, i).pending != Some(s.level + 1)
  {
  }

  /** Touching a slime without falling onto it retries the same level from
      scratch, whatever the kill count was. */
  lemma SideHitRetries(s: Session, i: nat, levels: seq<LevelLoader.LevelData>, widthOf: string -> int)
    requires Valid(s) && CanHit(s, i) && s.world.hero.vy <= 0
    requires |levels| == LEVEL_COUNT
    ensures OnHeroVsEnemy(s, i).pending == Some(s.level)
    ensures Start(OnHeroVsEnemy(s, i).pending, levels, widthOf)
              == Success(LoadLevel(s.level, levels[s.level], widthOf))
    ensures Start(OnHeroVsEnemy(s, i).pending, levels, widthOf).value.killCount == 0
  {
  }

  /** Because restarts are deferred, a retry requested by a side hit is
      overridden when the projectile kills the last slime in the same frame:
      the hero, though hit, moves on to the next level. */
  lemma SideHitThenShotClearAdvances(s: Session, i: nat, j: nat)
    requires Valid(s) && s.world.hero.vy <= 0 && CanHit(s, i)
    requires CanHit(s, j) && s.killCount + 1 == s.enemyCount
    ensures CanHit(OnHeroVsEnemy(s, i), j)
    ensures OnProjectileVsEnemy(OnHeroVsEnemy(s, i), j).pending == Some(s.level + 1)
  {
  }

  /** Keys held down during a frame. The jump key is edge-triggered and
      handled by `OnJumpKey` instead. */
  datatype Keys = Keys(left: bool, right: bool, fireLeft: bool, fireRight: bool)

  datatype Action = Move(direction: int) | Fire(direction: int)

  /** The single action a frame's keys select, by fixed priority. */
  function ChooseAction(k: Keys): (a: Action)
    ensures a == Move(-1) <==> k.left
    ensures a == Move(1) <==> !k.left && k.right
    ensures a == Fire(-1) <==> !k.left && !k.right && k.fireLeft
    ensures a == Fire(1) <==> !k.left && !k.right && !k.fireLeft && k.fireRight
    ensures a == Move(0) <==> !k.left && !k.right && !k.fireLeft && !k.fireRight
  {
    if k.left then Move(-1)
    else if k.right then Move(1)
    else if k.fireLeft then Fire(-1)
    else if k.fireRight then Fire(1)
    else Move(0)
  }

  /** Fires a projectile from the hero's position; it becomes the tracked
      projectile, replacing any earlier one. */
  function SpawnProjectile(s: Session, direction: int): (r: Session)
    ensures r.crescent.Some?
    ensures r.crescent.value.x == s.world.hero.x && r.crescent.value.y == s.world.hero.y
    ensures r.crescent.value.vx == (if direction == 1 then CrescentSprite.SPEED else -CrescentSprite.SPEED)
    ensures r.crescent.value.shootDir == direction && r.crescent.value.vy == 0
    ensures r == s.(crescent := r.crescent)
  {
    s.(crescent := Some(CrescentSprite.Spawn(s.world.hero.x, s.world.hero.y, direction)))
  }

  /** Applies the frame's one action: a move sets the hero's run velocity, a
      shot spawns a projectile and leaves the hero's velocity as it was. */
  function HandleInput(s: Session, k: Keys): (r: Session)
    ensures ChooseAction(k).Move? ==>
              r == WithHero(s, HeroSprite.Move(s.world.hero, ChooseAction(k).direction))
    ensures ChooseAction(k).Fire? ==>
              r == SpawnProjectile(s, ChooseAction(k).direction) && r.world == s.world
  {
    match ChooseAction(k)
    case Move(d) => WithHero(s, HeroSprite.Move(s.world.hero, d))
    case Fire(d) => SpawnProjectile(s, d)
  }

  /** Holding both move keys moves left; with no key held the hero stops but
      keeps facing the way it last moved; firing does not stop a running hero. */
  lemma InputPriority(s: Session, k: Keys)
    ensures k.left ==> HandleInput(s, k).world.hero.vx == -HeroSprite.SPEED
                       && HandleInput(s, k).world.hero.facing == -1
    ensures !k.left && !k.right && !k.fireLeft && !k.fireRight ==>
              HandleInput(s, k).world.hero.vx == 0
              && HandleInput(s, k).world.hero.facing == s.world.hero.facing
    ensures !k.left && !k.right && (k.fireLeft || k.fireRight) ==>
              HandleInput(s, k).world.hero == s.world.hero && HandleInput(s, k).crescent.Some?
    ensures HandleInput(s, k).killCount == s.killCount && HandleInput(s, k).pending == s.pending
  {
  }

  /** The jump key went down: the hero jumps if it can; the boolean reports
      whether it did. */
  function OnJumpKey(s: Session): (r: (Session, bool))
    ensures r.1 == s.world.hero.touchingDown
    ensures r.1 ==> r.0 == WithHero(s, s.world.hero.(vy := -HeroSprite.JUMP_SPEED))
    ensures !r.1 ==> r.0 == s
    ensures r.0.world.slimes == s.world.slimes && r.0.killCount == s.killCount
  {
    var (h, jumped) := HeroSprite.Jump(s.world.hero);
    (WithHero(s, h), jumped)
  }

  /** What the engine reports for one frame: the hero's position, velocity
      and ground contact after the physics step and its collision with the
      platforms, the slimes the hero and the tracked projectile overlap, in
      the engine's order, the keys held and each slime's contacts (a slime
      with no report touched nothing). */
  datatype FrameInput = FrameInput(heroX: int, heroY: int, heroVx: int, heroVy: int,
                                   grounded: bool,
                                   heroHits: seq<nat>, shotHits: seq<nat>,
                                   keys: Keys, contacts: seq<SlimeSprite.Contact>)

  /** The hero's body as the engine leaves it after the physics step. */
  function Settle(s: Session, input: FrameInput): Session {
    WithHero(s, s.world.hero.(x := input.heroX, y := input.heroY, vx := input.heroVx,
                              vy := input.heroVy, touchingDown := input.grounded))
  }

  /** Delivers the hero's overlaps in order, skipping any the engine would
      not report because the slime is already dying. */
  function HeroHits(s: Session, hits: seq<nat>): Session
    decreases |hits|
  {
    if |hits| == 0 then s
    else HeroHits(if CanHit(s, hits[0]) then OnHeroVsEnemy(s, hits[0]) else s, hits[1..])
  }

  /** Delivers the tracked projectile's overlaps in order; with no projectile
      fired yet there are none. */
  function ShotHits(s: Session, hits: seq<nat>): Session
    decreases |hits|
  {
    if |hits| == 0 || s.crescent.None? then s
    else ShotHits(if CanHit(s, hits[0]) then OnProjectileVsEnemy(s, hits[0]) else s, hits[1..])
  }

  lemma {:induction false} HeroHitsKeepValid(s: Session, hits: seq<nat>)
    requires Valid(s)
    ensures Valid(HeroHits(s, hits))
    decreases |hits|
  {
    if |hits| > 0 {
      if CanHit(s, hits[0]) {
        HitsKeepValid(s, hits[0]);
      }
      HeroHitsKeepValid(if CanHit(s, hits[0]) then OnHeroVsEnemy(s, hits[0]) else s, hits[1..]);
    }
  }

  lemma {:induction false} ShotHitsKeepValid(s: Session, hits: seq<nat>)
    requires Valid(s)
    ensures Valid(ShotHits(s, hits))
    decreases |hits|
  {
    if |hits| > 0 && s.crescent.Some? {
      if CanHit(s, hits[0]) {
        HitsKeepValid(s, hits[0]);
      }
      ShotHitsKeepValid(if CanHit(s, hits[0]) then OnProjectileVsEnemy(s, hits[0]) else s, hits[1..]);
    }
  }

  function ContactOf(contacts: seq<SlimeSprite.Contact>, k: nat): SlimeSprite.Contact {
    if k < |contacts| then contacts[k] else SlimeSprite.NoContact
  }

  /** The sprites' own per-frame updates: the hero's animation, every slime's
      wall-turn rule and the tracked projectile's drift. */
  function UpdateSprites(s: Session, contacts: seq<SlimeSprite.Contact>): (r: Session)
    ensures |r.world.slimes| == |s.world.slimes|
    ensures forall k :: 0 <= k < |s.world.slimes| ==>
              r.world.slimes[k] == SlimeSprite.Update(s.world.slimes[k], ContactOf(contacts, k))
    ensures r.world.hero == s.world.hero.(anim := HeroSprite.AnimationName(s.world.hero))
    ensures r.crescent.Some? <==> s.crescent.Some?
    ensures s.crescent.Some? ==> r.crescent.value == CrescentSprite.Update(s.crescent.value)
    ensures r.world.platforms == s.world.platforms && r.world.walls == s.world.walls
            && r.world.gravity == s.world.gravity
    ensures r.level == s.level && r.killCount == s.killCount
            && r.enemyCount == s.enemyCount && r.pending == s.pending
  {
    var slimes := seq(|s.world.slimes|, k requires 0 <= k < |s.world.slimes| =>
                        SlimeSprite.Update(s.world.slimes[k], ContactOf(contacts, k)));
    var crescent := if s.crescent.Some? then Some(CrescentSprite.Update(s.crescent.value)) else None;
    s.(world := s.world.(hero := HeroSprite.Update(s.world.hero).0, slimes := slimes),
       crescent := crescent)
  }

  /** One frame of a running attempt: collisions and overlaps first, then the
      keyboard, then the sprites' own updates. */
  function Frame(s: Session, input: FrameInput): Session {
    UpdateSprites(HandleInput(ShotHits(HeroHits(Settle(s, input), input.heroHits), input.shotHits),
                              input.keys),
                  input.contacts)
  }

  /** Advances the game by one frame: a pending restart takes effect first and
      replaces the whole attempt; otherwise the attempt runs a frame. */
  function Step(s: Session, input: FrameInput, levels: seq<LevelLoader.LevelData>,
                widthOf: string -> int): Result<Session, LoadError>
  {
    if s.pending.Some? then Start(s.pending, levels, widthOf)
    else Success(Frame(s, input))
  }

  /** Overlap callbacks never move the hero or change its velocity. */
  lemma {:induction false} HitsKeepHero(s: Session, heroHits: seq<nat>, shotHits: seq<nat>)
    ensures HeroHits(s, heroHits).world.hero == s.world.hero
    ensures ShotHits(s, shotHits).world.hero == s.world.hero
    decreases |heroHits| + |shotHits|
  {
    if |heroHits| > 0 {
      HitsKeepHero(if CanHit(s, heroHits[0]) then OnHeroVsEnemy(s, heroHits[0]) else s,
                   heroHits[1..], []);
    }
    if |shotHits| > 0 && s.crescent.Some? {
      HitsKeepHero(if CanHit(s, shotHits[0]) then OnProjectileVsEnemy(s, shotHits[0]) else s,
                   [], shotHits[1..]);
    }
  }

  /** In a frame whose keys fire, the projectile starts from where the engine
      has the hero now, and the hero keeps the velocity the engine reports: a
      hero the engine has stopped against a wall shows 'stop' on the ground. */
  lemma FireFrame(s: Session, input: FrameInput)
    requires ChooseAction(input.keys).Fire?
    ensures Frame(s, input).crescent.Some?
    ensures Frame(s, input).crescent.value.x == input.heroX
    ensures Frame(s, input).crescent.value.y == input.heroY
    ensures Frame(s, input).world.hero.vx == input.heroVx
    ensures Frame(s, input).world.hero.anim
              == HeroSprite.AnimationName(Settle(s, input).world.hero)
  {
    var a := HeroHits(Settle(s, input), input.heroHits);
    HitsKeepHero(Settle(s, input), input.heroHits, []);
    HitsKeepHero(a, [], input.shotHits);
  }

  lemma InputKeepsValid(s: Session, k: Keys)
    requires Valid(s)
    ensures Valid(HandleInput(s, k))
  {
    assert HandleInput(s, k).world.slimes == s.world.slimes;
  }

  lemma SpritesKeepValid(s: Session, contacts: seq<SlimeSprite.Contact>)
    requires Valid(s)
    ensures Valid(UpdateSprites(s, contacts))
  {
    DefeatedByLiveness(s.world.slimes, UpdateSprites(s, contacts).world.slimes);
  }

  /** Every frame of a running attempt keeps the session invariant. */
  lemma FrameKeepsValid(s: Session, input: FrameInput)
    requires Valid(s)
    ensures Valid(Frame(s, input))
  {
    var settled := Settle(s, input);
    assert settled.world.slimes == s.world.slimes;
    HeroHitsKeepValid(settled, input.heroHits);
    var a := HeroHits(settled, input.heroHits);
    ShotHitsKeepValid(a, input.shotHits);
    var b := ShotHits(a, input.shotHits);
    InputKeepsValid(b, input.keys);
    SpritesKeepValid(HandleInput(b, input.keys), input.contacts);
  }

  /** Every step keeps the session invariant, and with both level
      descriptions present no restart fails: the kill count stays within the
      enemy count for the whole game. */
  lemma StepKeepsValid(s: Session, input: FrameInput, levels: seq<LevelLoader.LevelData>,
                       widthOf: string -> int)
    requires Valid(s) && |levels| == LEVEL_COUNT
    ensures Step(s, input, levels, widthOf).Success?
    ensures Valid(Step(s, input, levels, widthOf).value)
  {
    if s.pending.None? {
      FrameKeepsValid(s, input);
    }
  }
}

=== FILE: slime.dfy ===
/** The crawling enemy: it patrols at a fixed speed, turns around at walls,
    and on death stops taking part in collisions. */
module SlimeSprite {
  import opened Facing

  /** Patrol speed. */
  const SPEED: int := 100

  /** The engine's contact report for one frame: `touching*` from collisions
      with other bodies, `blocked*` from the world's bounds. */
  datatype Contact = Contact(touchingLeft: bool, touchingRight: bool,
                             blockedLeft: bool, blockedRight: bool)
  {
    predicate OnRight() { touchingRight || blockedRight }
    predicate OnLeft() { touchingLeft || blockedLeft }
  }

  const NoContact := Contact(false, false, false, false)

  datatype SlimeAnim = Crawl | Dying

  /** `bodyEnabled` is false once the slime has died: a dying slime is still
      drawn but no longer collides or overlaps with anything. */
  datatype Slime = Slime(x: int, y: int, vx: int, facing: Scale,
                         bodyEnabled: bool, anim: SlimeAnim)

  /** A freshly spawned slime crawls to the right with its body enabled. */
  function Spawn(x: int, y: int): (r: Slime)
    ensures r.x == x && r.y == y && r.vx == SPEED && r.facing == 1
    ensures r.bodyEnabled && r.anim == Crawl
  {
    Slime(x, y, SPEED, 1, true, Crawl)
  }

  /** The wall-turn rule: contact on the right sends the slime left, otherwise
      contact on the left sends it right; the sprite then faces its motion. */
  function Update(s: Slime, c: Contact): (r: Slime)
    ensures c.OnRight() ==> r.vx == -SPEED
    ensures !c.OnRight() && c.OnLeft() ==> r.vx == SPEED
    ensures !c.OnRight() && !c.OnLeft() ==> r.vx == s.vx
    ensures FacesMotion(r.facing, r.vx)
    ensures r.vx == 0 ==> r.facing == s.facing
    ensures r == s.(vx := r.vx, facing := r.facing)
  {
    var vx := if c.OnRight() then -SPEED else if c.OnLeft() then SPEED else s.vx;
    s.(vx := vx, facing := Mirror(s.facing, vx))
  }

  /** Death disables the body at once and starts the death animation. */
  function Die(s: Slime): (r: Slime)
    ensures !r.bodyEnabled && r.anim == Dying
    ensures r == s.(bodyEnabled := false, anim := Dying)
  {
    s.(bodyEnabled := false, anim := Dying)
  }

  /** The slime after the engine reported `cs[0]`, `cs[1]`, ... on
      successive frames. */
  function Patrol(s: Slime, cs: seq<Contact>): Slime
    decreases |cs|
  {
    if |cs| == 0 then s else Patrol(Update(s, cs[0]), cs[1..])
  }

  /** A slime moving at patrol speed keeps moving at patrol speed, drawn
      facing its motion, whatever walls it meets. */
  predicate Patrolling(s: Slime) {
    (s.vx == SPEED || s.vx == -SPEED) && FacesMotion(s.facing, s.vx)
  }

  /** A slime that is patrolling stays patrolling, and alive or dying as it
      was, whatever walls the engine reports it touching. */
  lemma {:induction false} PatrolKeepsSpeed(s: Slime, cs: seq<Contact>)
    requires Patrolling(s)
    ensures Patrolling(Patrol(s, cs))
    ensures Patrol(s, cs).bodyEnabled == s.bodyEnabled
    decreases |cs|
  {
    if |cs| > 0 {
      PatrolKeepsSpeed(Update(s, cs[0]), cs[1..]);
    }
  }

  /** Every slime starts out patrolling, so none ever stops or turns its
      back on its motion. */
  lemma SpawnPatrols(x: int, y: int, cs: seq<Contact>)
    ensures Patrolling(Patrol(Spawn(x, y), cs))
  {
    PatrolKeepsSpeed(Spawn(x, y), cs);
  }

  /** Repeating the update with the same contact report changes nothing more. */
  lemma UpdateIdempotent(s: Slime, c: Contact)
    ensures Update(Update(s, c), c) == Update(s, c)
  {
  }

  /** Touching a wall on the right turns the slime left at full speed and
      draws it facing left, whichever way it was going before. */
  lemma TurnAtRightWall(s: Slime, c: Contact)
    requires c.OnRight()
    ensures Update(s, c).vx == -SPEED && Update(s, c).facing == -1
  {
  }
}

=== FILE: stomp.dfy ===
/** The hero-versus-slime callback exactly as the source has it. Its stomp
    branch first calls the hero's `bounce`, which nothing defines, so the call
    throws a TypeError before the slime dies or the kill is counted. The rest
    of the model uses `PlayState.OnHeroVsEnemy`, which carries on with the
    stomp and leaves the bounce's own effect out. */
module StompAsWritten {
  import opened Wrappers
  import PlayState
  import LevelLoader

  datatype Fault = TypeError(message: string)

  function OnHeroVsEnemyAsWritten(s: PlayState.Session, i: nat)
    : (r: Result<PlayState.Session, Fault>)
    requires PlayState.CanHit(s, i)
    ensures s.world.hero.vy > 0 ==> r.Failure?
    ensures s.world.hero.vy <= 0 ==> r == Success(PlayState.OnHeroVsEnemy(s, i))
  {
    if s.world.hero.vy > 0 then Failure(TypeError("hero.bounce is not a function"))
    else Success(s.(pending := Some(s.level)))
  }

  /** Every stomp throws as written, where the intended callback counts it. */
  lemma StompNeverCounts(s: PlayState.Session, i: nat)
    requires PlayState.Valid(s) && PlayState.CanHit(s, i) && s.world.hero.vy > 0
    ensures OnHeroVsEnemyAsWritten(s, i).Failure?
    ensures PlayState.OnHeroVsEnemy(s, i).killCount == s.killCount + 1
    ensures PlayState.Valid(PlayState.OnHeroVsEnemy(s, i))
  {
    PlayState.HitsKeepValid(s, i);
  }

  /** A level with a single slime; the hero lands on it falling at speed 1. */
  function OneSlimeLanding(): PlayState.Session {
    var data := LevelLoader.LevelData([], LevelLoader.Point(0, 0), [LevelLoader.Point(10, 0)]);
    var s := PlayState.LoadLevel(0, data, (image: string) => 32);
    PlayState.WithHero(s, s.world.hero.(vy := 1))
  }

  /** On that input the source throws, while the intended behaviour clears
      the level and requests level 1. */
  lemma OneSlimeLandingDiffers()
    ensures PlayState.CanHit(OneSlimeLanding(), 0)
    ensures OnHeroVsEnemyAsWritten(OneSlimeLanding(), 0).Failure?
    ensures PlayState.OnHeroVsEnemy(OneSlimeLanding(), 0).pending == Some(1)
  {
  }
}

=== FILE: wrappers.dfy ===
/** Failure-carrying values shared by the level loader and the session machine. */
module Wrappers {

  /** A value that may be absent (a JavaScript `undefined` field). */
  datatype Option<+T> = None | Some(value: T) {

    /** The value, or `default` when absent (JavaScript's `x || default` for
        values whose only falsy case is the default itself). */
    function GetOr(default: T): T {
      match this
      case Some(v) => v
      case None => default
    }
  }

  /** Either a computed value or the error that stopped the computation. */
  datatype Result<+R, +E> = Success(value: R) | Failure(error: E)
}
